=== FILE: README.md ===
# Keyed task queues, modelled in Dafny

This project models the core of a small TypeScript task-queue library. The
library has two queue variants and one drain driver:

- `Queue<T>` is a data queue. It keeps an insertion-ordered JavaScript `Map`
  from `taskId` to payload. After `load(path)` it is *bound*, which means
  `loaded && path` is truthy. A bound queue mirrors every mutation into a JSON
  file that holds an array of `{taskId, task}` records. `add`, `del` and
  `next` each read the whole array, edit it and write it back. `clear` writes
  `[]` without reading.
- `FnQueue<T>` is a function queue. It keeps deferred computations in memory
  only. `next` pops the oldest computation and awaits it. `runAll` drains the
  queue behind a `#running` guard and collects every result that is not `false`.
- `processQueue(q, fn)` hands each item of either variant to a handler, then
  clears the queue.

Modules, one per component:

| file | module | models |
|---|---|---|
| `outcomes.dfy` | `Outcomes` | `Option` (for `undefined`/`false`), `Outcome` (returned or thrown), `Step` (new state plus return value) |
| `ordered_maps.dfy` | `OrderedMaps` | a JS `Map<string, V>` as `OMap<V>`, a sequence of entries with distinct keys; `get`, `set`, `delete` |
| `stores.dfy` | `Stores` | the durable store as an abstract `Resource` (`Missing`, `Corrupt`, `Holds(records)`); `readFile`, `findIndex`/`splice`, and `new Map(array)` |
| `data_queue.dfy` | `DataQueue` | `Queue`: `load`, `add`, `del`, `clear`, `get`, `next`, `run`, `runAsync`; store/memory consistency; FIFO order |
| `fn_queue.dfy` | `FunctionQueue` | `FnQueue`: `add`, `del`, `clear`, `get`, `next`, `runAll` and its guard |
| `driver.dfy` | `Driver` | `processQueue`: both branches and the dispatcher |
| `scenarios.dfy` | `Scenarios` | worked examples: the demo's four named tasks, and two small `runAll` cases written for the model (`["A", "B"]`, a dropped `false`) |

How the model represents the program:

- Every operation is a pure function. It takes the queue value and returns
  `Step(newState, returned)`.
- `Outcome.Err` stands for a thrown exception:
  - `StoreUnreadable` is a store read that fails. This includes a path that
    names no file, because creating it fails too.
  - `AlreadyRunning` is `runAll` while the guard is set.
  - `ComputationFailed` is a computation that throws.
  - `HandlerFailed` is a handler that throws.
- The unset `path` is the empty string. Both are falsy, so `Bound` is
  `loaded && path != ""`.
- `options.delay` is a `nat`. 0 stands for absent, `null` or `0`.
- `load` receives the resource found at the path as a parameter. The queue
  then holds that resource as its `store`.
- A computation is an opaque value `C`, and running it is a parameter
  `eval: C -> Completion<R>`. The possible completions are returned value,
  returned `false`, or threw.
- The `processQueue` handler is a parameter `accepts: Y -> bool`. A rejected
  item is one whose call throws. The model records the calls made in a trace.

Behaviour of the code that a reader might not expect, which the model keeps:

- `runAll` has no `try/finally`, so a computation that throws leaves
  `#running` set. One might expect the guard to be released on every exit
  path. `FailedRunAllStaysLocked` proves the code's behaviour.
- `load` builds a `Map` from the record array. For a duplicated taskId, the
  key keeps the position of its first record and the task of its last
  record. One might expect the first occurrence to win outright. `MapOfKeys`
  and `MapOfGet` prove the code's behaviour.
- `next` tests `if (!firstKey)`. An oldest entry keyed `""` therefore makes
  `next` answer `false` without popping anything, even though the queue is
  not empty. `runAll` then spins forever on such a queue, unless a
  computation ahead of that entry throws first. The model requires
  non-empty keys for `runAll` and proves the stall separately.
- If `load` fails, the code keeps the old map and binding, because the read
  happens before any assignment.

## Model

| member | source | states |
|---|---|---|
| OrderedMaps.Get | src/entities/Queue.ts:81-83 | `Map.get` yields the value stored under the key (`Some`), and `None` exactly when the key is absent |
| OrderedMaps.Set | src/entities/Queue.ts:35 | `Map.set` of a new key appends it at the end of iteration order; a present key keeps its position and takes the new value; every other key keeps its value |
| OrderedMaps.Delete | src/entities/Queue.ts:55 | `Map.delete` removes exactly the entries with that key and keeps every other entry; an absent key changes nothing |
| OrderedMaps.DeleteAt | src/entities/Queue.ts:55 | after `Map.delete`, the remaining entries keep their relative order: the result is the map with that one position cut out |
| Stores.Read | src/utils/readFile.ts:4-12 | a missing resource is created holding `[]` and reads as `[]`; an unreadable one throws and stays as it is; otherwise the stored records are returned unchanged |
| Stores.FindIndex | src/entities/Queue.ts:60 | `findIndex` gives the position of the first record with the taskId, or -1 exactly when no record has it |
| Stores.RemoveFirst | src/entities/Queue.ts:60-61 | `findIndex` then `splice(index, 1)` removes the first record with the taskId and keeps the others in order; with no match the array is unchanged |
| Stores.MapOf | src/entities/Queue.ts:20 | `new Map(arr.map(...))` has a key exactly for each taskId that occurs in the array |
| Stores.MapOfKeys | src/entities/Queue.ts:20 | the loaded map orders its keys by the first occurrence of each taskId in the array |
| Stores.MapOfGet | src/entities/Queue.ts:20 | each loaded key holds the task of the last record with that taskId |
| Stores.MapOfRecordsOf | src/entities/Queue.ts:20 | writing a map out as its records and loading them back gives the same map |
| Stores.RecordsOfMapOf | src/entities/Queue.ts:20 | a record array with distinct taskIds survives being loaded into a map and written back |
| Stores.RemoveFirstRecordsOf | src/entities/Queue.ts:55-62 | on a mirrored store, removing the first record with the taskId equals deleting that key from the map |
| DataQueue.Load | src/entities/Queue.ts:17-27 | an unreadable store, or the empty path (which names no file), throws and leaves the queue unchanged; otherwise the map is rebuilt from the records (first-occurrence positions, last-occurrence tasks), the queue is marked loaded with the new path, and the map is returned |
| DataQueue.LoadMissing | src/utils/checkFileExists.ts:8-10 | loading a path whose resource does not exist yields a bound, empty queue and creates the resource holding `[]` |
| DataQueue.Add | src/entities/Queue.ts:31-49 | a present key returns false and changes nothing, including that key's payload; a fresh key is appended last and returns true; when bound, the store gains exactly that record at its end; with an unreadable store, memory is already changed when the call throws |
| DataQueue.Del | src/entities/Queue.ts:52-70 | an absent key returns false and changes nothing; a present key is cut out and the survivors keep their order; when bound, the first store record with that taskId is removed; an unreadable store throws after memory has changed |
| DataQueue.Clear | src/entities/Queue.ts:73-78 | the map becomes empty; a bound store is overwritten with `[]`; an unbound store and the binding are untouched |
| DataQueue.GetTask | src/entities/Queue.ts:81-83 | `get` returns the payload stored under the key (`Some`), or `None` exactly when the key is absent |
| DataQueue.Next | src/entities/Queue.ts:91-111 | an empty queue, or one whose oldest key is `""`, answers `false` and changes nothing; otherwise the oldest payload is returned and only that entry is removed, with the same store edit as `del` |
| DataQueue.Run | src/entities/Queue.ts:114-118 | `run` yields one `{taskId, task}` per entry in iteration order; each pair is what `get` returns for its taskId; loading the yielded pairs rebuilds the same map |
| DataQueue.NewQueue | src/entities/Queue.ts:5-14 | a new queue has no keys, is not bound, and keeps the given delay |
| DataQueue.RunAsync | src/entities/Queue.ts:121-128 | `runAsync` yields exactly the pairs `run` yields, in the same order, and the waits add up to `delay` ms per pair |
| DataQueue.AddKeepsConsistent | src/entities/Queue.ts:35-41 | if a bound store holds exactly the map's records, it still does after `add` |
| DataQueue.DelKeepsConsistent | src/entities/Queue.ts:55-62 | if a bound store holds exactly the map's records, it still does after `del` |
| DataQueue.NextKeepsConsistent | src/entities/Queue.ts:95-103 | if a bound store holds exactly the map's records, it still does after `next` |
| DataQueue.ClearKeepsConsistent | src/entities/Queue.ts:73-77 | `clear` keeps a bound store equal to the map's records, both now empty |
| DataQueue.LoadIsConsistent | src/entities/Queue.ts:17-23 | loading, from a non-empty path, a store whose records have distinct taskIds leaves a queue whose store holds exactly its map's records |
| DataQueue.ReloadRoundTrip | src/entities/Queue.ts:17-23 | reloading a consistent bound queue from its own store gives back the same queue and returns its map |
| DataQueue.AddThenReload | src/entities/Queue.ts:17-41 | a payload added under a fresh key to a bound queue with a readable store is found under that key after a fresh `load`, whatever else the store holds, because the appended record is the last with that taskId |
| DataQueue.AddThenDel | src/entities/Queue.ts:31-70 | `del` of a freshly added key undoes the `add` in both memory and store, and returns true |
| DataQueue.AddEachAppends | src/entities/Queue.ts:31-49 | adding distinct fresh keys one after another appends them in that order, and a readable store stays readable |
| DataQueue.NextEachPops | src/entities/Queue.ts:91-111 | calling `next` once per entry on a queue with no `""` key returns the payloads in iteration order and empties the queue |
| DataQueue.FifoOrder | src/entities/Queue.ts:91-111 | k distinct non-empty keys added to an empty queue (whose store, if bound, is readable) come back from k calls of `next` in the order they were added, and the queue is then empty |
| DataQueue.EmptyKeyBlocksNext | src/entities/Queue.ts:92-93 | with an oldest entry keyed `""`, any number of `next` calls answer `false` and pop nothing |
| DataQueue.DuplicateIdsBreakMirror | src/entities/Queue.ts:55-62 | for a store edited to hold a taskId twice, `del` drops the key from memory but only its first record from the store, so a reload brings the key back |
| FunctionQueue.NewFnQueue | src/entities/fnQueue.ts:1-8 | a new function queue has no keys and its guard is clear |
| FunctionQueue.Add | src/entities/fnQueue.ts:11-22 | a present key returns false and keeps the stored computation; a fresh key is appended last and returns true; the guard is untouched |
| FunctionQueue.Del | src/entities/fnQueue.ts:25-29 | an absent key returns false and changes nothing; a present key is cut out and the rest keep their order |
| FunctionQueue.AddThenDel | src/entities/fnQueue.ts:11-29 | `del` of a freshly added key undoes the `add` and returns true |
| FunctionQueue.Clear | src/entities/fnQueue.ts:32-34 | `clear` empties the map and leaves `#running` as it was |
| FunctionQueue.GetTask | src/entities/fnQueue.ts:37-39 | `get` returns the computation under the key (`Some`), or `None` exactly when the key is absent |
| FunctionQueue.Next | src/entities/fnQueue.ts:47-58 | an empty queue, or an oldest key `""`, answers `false` and changes nothing; otherwise the oldest entry is removed before its computation runs, and `next` returns that computation's completion |
| FunctionQueue.Drain | src/entities/fnQueue.ts:66-71 | with no `""` key the loop ends. If no computation throws, the queue is empty, the guard is released, and the results so far are extended by every non-false value in queue order. Otherwise the queue keeps the entries after the first throwing one and the guard is left as it was |
| FunctionQueue.RunAll | src/entities/fnQueue.ts:61-73 | while `#running`, throws and changes nothing; otherwise returns every non-false result in insertion order, leaves the queue empty and the guard false; or, if a computation throws, throws with the later entries still queued and the guard still set |
| FunctionQueue.IterationPops | src/entities/fnQueue.ts:67-68 | each loop pass with a non-empty oldest key pops exactly that entry and keeps its result unless it is `false` |
| FunctionQueue.EmptyKeyStallsRunAll | src/entities/fnQueue.ts:66-69 | with an oldest key `""`, no number of loop passes changes the loop state, and `size > 0` stays true, so `runAll` never returns |
| FunctionQueue.FailedRunAllStaysLocked | src/entities/fnQueue.ts:62-71 | after a computation throws inside `runAll`, `#running` stays true and every later `runAll` throws without touching the queue |
| FunctionQueue.ResultsAreReturnedValues | src/entities/fnQueue.ts:68 | a value is among `runAll`'s results exactly when some queued computation returns it |
| Driver.Feed | src/processQueue.ts:21-23 | the handler is called on each item once, in order, until a call throws; the run completes exactly when every call returns |
| Driver.ProcessFnQueue | src/processQueue.ts:20-24 | on a running FnQueue, throws with no handler call and no change; if a computation throws, no handler runs; otherwise each `runAll` result goes to the handler in order, stopping at the first call that throws (every earlier call returned), and the queue ends empty and idle, even when the handler throws |
| Driver.ProcessDataQueue | src/processQueue.ts:25-29 | the handler gets the `{taskId, task}` pairs in insertion order, stopping at the first call that throws (every earlier call returned); on success the map is empty and a bound store is `[]`; if the handler throws, `clear` is never reached and the queue is exactly as before |
| Driver.ProcessQueue | src/processQueue.ts:16-31 | dispatches on the variant: a normal return leaves the queue empty (and a bound store `[]`, and a FnQueue idle); a data queue is untouched on failure; a running FnQueue throws untouched; a computation that throws leaves the later computations queued with the guard stuck and calls no handler; once `runAll` has succeeded the FnQueue is empty and idle even if the handler throws; handler calls follow queue order, stop at the first call that throws, and on a normal return cover every item |
| Scenarios.DrainNamedTasks | src/example.ts:5-13 | draining the demo's four named `{ name }` tasks hands them to the handler in the order added and leaves the queue empty |
| Scenarios.RunAllTwoTasks | src/entities/fnQueue.ts:61-73 | `runAll` over `task1 -> "A"`, `task2 -> "B"` returns `["A", "B"]`; entered again while the guard is set it throws |
| Scenarios.RunAllDropsFalse | src/entities/fnQueue.ts:68 | a computation returning `false` runs but its result is not collected |

## Left out

- File I/O and JSON: `readFile`, `writeFile` and `checkFileExists` become the abstract `Resource`. `Corrupt` stands for content on which `load`, `add`, `del` and `next` all throw: text that is not JSON, or JSON that is not an array. Arrays holding items that are not `{taskId, task}` records are not represented. A `null` item makes `load` throw, but `add` still appends after it, and `del`/`next` throw only if `findIndex` reaches it before a match. Other items (`[{}]`, `[1]`) load under an `undefined` key.
- Store writes are assumed to succeed. A failing `writeFile` is not modelled. Failing reads are modelled, and they already show memory changing before the store step throws.
- Concurrency is not modelled: there are no races between a store read and its write, no other writers of the file, and no interleaved calls. The `#running` flag is kept as a sequential guard only.
- Delays: `FnQueue.next`'s post-computation `setTimeout` is timing only and is not modelled. `runAsync`'s delay appears only as `Pause` events in the event stream.
- Promise wrapping (`async () => task()`) is treated as plain sequential evaluation. `get` on a function queue returns the stored computation itself, where the code returns its async wrapper.
- `getAll` and the `list` getter return live views of the map, which are not modelled. `Run` gives the snapshot.
- Re-throwing errors as `Error(String(e))` is modelled only as the opaque failure kinds of `Outcome`.
- Computations and handlers that mutate the queue they run from are not modelled: `eval` and `accepts` are pure.
- Console output of `src/example.ts` is not modelled. Its data flow is the `Scenarios` module.
- FunctionQueue.RunAll: requires every key to be non-empty when the guard is clear, because with a `""` key the source loop does not terminate unless an earlier computation throws; that case is covered by `EmptyKeyStallsRunAll` instead of by `RunAll` itself.
- Driver.ProcessFnQueue: inherits the same non-empty-key requirement from `runAll`.
- Driver.ProcessQueue: inherits the same non-empty-key requirement for its FnQueue branch.
- Store/memory consistency is stated for stores whose records have distinct taskIds. Only a store edited outside the queue can repeat a taskId, and that breaks the mirror, as `DuplicateIdsBreakMirror` shows.
- `Option` keeps a stored value apart from an absent one. The code does not. After `add(["k", undefined])`, `get("k")` returns `undefined`, exactly as for a missing key. A queue whose oldest payload is `false` answers `next()` with `false`, exactly as an empty queue does. The model's `Some(undefined)`/`Some(false)` has no such collision.
- Data payloads are compared with Dafny equality in the consistency and round-trip lemmas. This assumes a payload survives `JSON.stringify` then `JSON.parse` unchanged. Payloads holding `undefined` fields, `NaN` or `Date` values do not, and for those `ReloadRoundTrip` states more than the code does.

=== FILE: data_queue.dfy ===
/** `Queue<T>`: an ordered keyed queue of data payloads that, once loaded
    from a path, mirrors every mutation to the store at that path. */
module DataQueue {
  import opened Outcomes
  import opened OrderedMaps
  import opened Stores

  /** The map, the path ("" while unset: both are falsy), the loaded flag,
      the resource at that path, and `options.delay` (0 when absent). */
  datatype Queue<V> = Queue(list: OMap<V>, path: string, loaded: bool, store: Resource<V>, delay: nat)

  /** `new Queue(options)`: empty, unbound, with the given delay. */
  function NewQueue<V>(delay: nat): (r: Queue<V>)
    ensures forall k :: !Has(r.list, k)
    ensures !Bound(r) && Readable(r) && r.delay == delay
  {
    Queue([], "", false, Missing, delay)
  }

  /** Mutations reach the store only when `this.loaded && this.path`. */
  predicate Bound<V>(q: Queue<V>) {
    q.loaded && q.path != ""
  }

  /** A bound queue's store holds exactly its map's records, in order. */
  predicate Consistent<V(==)>(q: Queue<V>) {
    Bound(q) ==> q.store == Holds(RecordsOf(q.list))
  }

  /** The store of a bound queue can be read. */
  predicate Readable<V>(q: Queue<V>) {
    Bound(q) ==> !q.store.Corrupt?
  }

  /** The read-modify-write each mutation performs after changing memory:
      when bound, read the records, apply `edit`, write them back. */
  function Mirror<V, R>(q: Queue<V>, edit: seq<Record<V>> -> seq<Record<V>>, ret: R): Step<Queue<V>, Outcome<R>> {
    if !Bound(q) then Step(q, Ok(ret))
    else
      var rd := Read(q.store);
      match rd.out
      case Err(f) => Step(q.(store := rd.state), Err(f))
      case Ok(arr) => Step(q.(store := Holds(edit(arr))), Ok(ret))
  }

  /** `load(path)`, given what the resource at `path` holds. The empty
      path names no file: checking it and creating it both fail, so the
      read throws and the queue is left as it was. */
  function Load<V>(q: Queue<V>, path: string, res: Resource<V>): (s: Step<Queue<V>, Outcome<OMap<V>>>)
    ensures path == "" || res.Corrupt? ==> s == Step(q, Err(StoreUnreadable))
    ensures path != "" && !res.Corrupt? ==>
      && s.out == Ok(s.state.list)
      && s.state.path == path && s.state.loaded && s.state.delay == q.delay
      && s.state.store == Holds(Contents(res))
      && Keys(s.state.list) == FirstOccurrences(Ids(Contents(res)))
      && forall k :: Get(s.state.list, k) == LastTask(Contents(res), k)
  {
    if path == "" then Step(q, Err(StoreUnreadable))
    else
    var rd := Read(res);
    match rd.out
    case Err(f) => Step(q, Err(f))
    case Ok(arr) =>
      var m := MapOf(arr);
      MapOfKeys(arr);
      assert forall k :: Get(m, k) == LastTask(arr, k) by {
        forall k { MapOfGet(arr, k); }
      }
      Step(q.(list := m, path := path, loaded := true, store := rd.state), Ok(m))
  }

  /** `add([taskId, task])` */
  function Add<V>(q: Queue<V>, k: string, v: V): (s: Step<Queue<V>, Outcome<bool>>)
    ensures Has(q.list, k) ==> s == Step(q, Ok(false))
    ensures !Has(q.list, k) ==>
      && s.state.list == q.list + [Entry(k, v)]
      && s.state.path == q.path && s.state.loaded == q.loaded && s.state.delay == q.delay
    ensures !Has(q.list, k) && !Bound(q) ==> s.out == Ok(true) && s.state.store == q.store
    ensures !Has(q.list, k) && Bound(q) && q.store.Corrupt? ==>
      s.out == Err(StoreUnreadable) && s.state.store == q.store
    ensures !Has(q.list, k) && Bound(q) && !q.store.Corrupt? ==>
      s.out == Ok(true) && s.state.store == Holds(Contents(q.store) + [Record(k, v)])
  {
    if Has(q.list, k) then Step(q, Ok(false))
    else Mirror(q.(list := Set(q.list, k, v)), arr => arr + [Record(k, v)], true)
  }

  /** `del(taskId)` */
  function Del<V>(q: Queue<V>, k: string): (s: Step<Queue<V>, Outcome<bool>>)
    ensures !Has(q.list, k) ==> s == Step(q, Ok(false))
    ensures Has(q.list, k) ==>
      && (forall i :: 0 <= i < |q.list| && q.list[i].key == k ==> s.state.list == q.list[..i] + q.list[i + 1..])
      && s.state.path == q.path && s.state.loaded == q.loaded && s.state.delay == q.delay
    ensures Has(q.list, k) && !Bound(q) ==> s.out == Ok(true) && s.state.store == q.store
    ensures Has(q.list, k) && Bound(q) && q.store.Corrupt? ==>
      s.out == Err(StoreUnreadable) && s.state.store == q.store
    ensures Has(q.list, k) && Bound(q) && !q.store.Corrupt? ==>
      s.out == Ok(true) && s.state.store == Holds(RemoveFirst(Contents(q.store), k))
  {
    if !Has(q.list, k) then Step(q, Ok(false))
    else
      assert forall i :: 0 <= i < |q.list| && q.list[i].key == k ==> Delete(q.list, k) == q.list[..i] + q.list[i + 1..] by {
        forall i | 0 <= i < |q.list| && q.list[i].key == k { DeleteAt(q.list, i); }
      }
      Mirror(q.(list := Delete(q.list, k)), arr => RemoveFirst(arr, k), true)
  }

  /** `clear()` */
  function Clear<V>(q: Queue<V>): (r: Queue<V>)
    ensures r.list == []
    ensures r.path == q.path && r.loaded == q.loaded && r.delay == q.delay
    ensures Bound(q) ==> r.store == Holds([])
    ensures !Bound(q) ==> r.store == q.store
  {
    var emptied := q.(list := []);
    if Bound(q) then emptied.(store := Holds([])) else emptied
  }

  /** `get(taskId)`: the payload, or None for `undefined`. */
  function GetTask<V>(q: Queue<V>, k: string): (r: Option<V>)
    ensures r.Some? <==> Has(q.list, k)
    ensures forall i :: 0 <= i < |q.list| && q.list[i].key == k ==> r == Some(q.list[i].val)
  {
    Get(q.list, k)
  }

  /** `next()`: the oldest payload, or None for `false`. Reads the first key
      with `if (!firstKey)`, so an empty queue and a queue whose oldest key
      is "" both answer `false` and stay as they are. */
  function Next<V>(q: Queue<V>): (s: Step<Queue<V>, Outcome<Option<V>>>)
    ensures |q.list| == 0 || q.list[0].key == "" ==> s == Step(q, Ok(None))
    ensures |q.list| > 0 && q.list[0].key != "" ==>
      && s.state.list == q.list[1..]
      && s.state.path == q.path && s.state.loaded == q.loaded && s.state.delay == q.delay
    ensures |q.list| > 0 && q.list[0].key != "" && !Bound(q) ==>
      s.out == Ok(Some(q.list[0].val)) && s.state.store == q.store
    ensures |q.list| > 0 && q.list[0].key != "" && Bound(q) && q.store.Corrupt? ==>
      s.out == Err(StoreUnreadable) && s.state.store == q.store
    ensures |q.list| > 0 && q.list[0].key != "" && Bound(q) && !q.store.Corrupt? ==>
      s.out == Ok(Some(q.list[0].val)) && s.state.store == Holds(RemoveFirst(Contents(q.store), q.list[0].key))
  {
    if |q.list| == 0 || q.list[0].key == "" then Step(q, Ok(None))
    else
      var first := q.list[0];
      DeleteAt(q.list, 0);
      Mirror(q.(list := Delete(q.list, first.key)), arr => RemoveFirst(arr, first.key), Some(first.val))
  }

  /** `run()`: the `{taskId, task}` pairs of the map at the time of the call. */
  function Run<V>(q: Queue<V>): (r: seq<Record<V>>)
    ensures |r| == |q.list|
    ensures forall i :: 0 <= i < |r| ==> r[i].taskId == q.list[i].key && GetTask(q, r[i].taskId) == Some(r[i].task)
    ensures DistinctIds(r)
    ensures MapOf(r) == q.list
  {
    RecordsOfDistinct(q.list);
    MapOfRecordsOf(q.list);
    RecordsOf(q.list)
  }

  /** What `runAsync()` does on each turn: wait `delay` ms when a delay is
      configured, then yield a pair. */
  datatype Event<V> = Pause(ms: nat) | Yield(item: Record<V>)

  function Yields<V>(es: seq<Event<V>>): seq<Record<V>>
    decreases |es|
  {
    if |es| == 0 then []
    else (if es[0].Yield? then [es[0].item] else []) + Yields(es[1..])
  }

  function Paused<V>(es: seq<Event<V>>): nat
    decreases |es|
  {
    if |es| == 0 then 0
    else (if es[0].Pause? then es[0].ms else 0) + Paused(es[1..])
  }

  function Pairs<V>(m: seq<Entry<V>>, delay: nat): seq<Event<V>>
    decreases |m|
  {
    if |m| == 0 then []
    else
      (if delay > 0 then [Pause(delay)] else [])
      + [Yield(Record(m[0].key, m[0].val))]
      + Pairs(m[1..], delay)
  }

  /** `runAsync()` as the stream of its waits and yields: the same pairs
      as `run()`, with `delay` ms waited before each one. */
  function RunAsync<V>(q: Queue<V>): (r: seq<Event<V>>)
    ensures Yields(r) == Run(q)
    ensures Paused(r) == |q.list| * q.delay
  {
    PairsYield(q.list, q.delay);
    Pairs(q.list, q.delay)
  }

  lemma YieldsAppend<V>(a: seq<Event<V>>, b: seq<Event<V>>)
    ensures Yields(a + b) == Yields(a) + Yields(b)
    ensures Paused(a + b) == Paused(a) + Paused(b)
    decreases |a|
  {
    if |a| == 0 {
      assert a + b == b;
    } else {
      assert (a + b)[0] == a[0];
      assert (a + b)[1..] == a[1..] + b;
      YieldsAppend(a[1..], b);
    }
  }

  lemma {:induction false} PairsYield<V>(m: seq<Entry<V>>, delay: nat)
    ensures Yields(Pairs(m, delay)) == RecordsOf(m)
    ensures Paused(Pairs(m, delay)) == |m| * delay
    decreases |m|
  {
    if |m| > 0 {
      var head: seq<Event<V>> := (if delay > 0 then [Pause(delay)] else []) + [Yield(Record(m[0].key, m[0].val))];
      PairsYield(m[1..], delay);
      YieldsAppend(head, Pairs(m[1..], delay));
      YieldsAppend(if delay > 0 then [Pause(delay)] else [], [Yield(Record(m[0].key, m[0].val))]);
      assert RecordsOf(m) == [Record(m[0].key, m[0].val)] + RecordsOf(m[1..]);
    }
  }

  // ---------------------------------------------------------------------
  // The store stays the mirror of memory

  lemma AddKeepsConsistent<V>(q: Queue<V>, k: string, v: V)
    requires Consistent(q)
    ensures Consistent(Add(q, k, v).state)
  {
    if !Has(q.list, k) {
      RecordsOfAppend(q.list, Entry(k, v));
    }
  }

  lemma DelKeepsConsistent<V>(q: Queue<V>, k: string)
    requires Consistent(q)
    ensures Consistent(Del(q, k).state)
  {
    if Has(q.list, k) && Bound(q) {
      var i :| 0 <= i < |q.list| && q.list[i].key == k;
      DeleteAt(q.list, i);
      RemoveFirstRecordsOf(q.list, k);
    }
  }

  lemma NextKeepsConsistent<V>(q: Queue<V>)
    requires Consistent(q)
    ensures Consistent(Next(q).state)
  {
    if |q.list| > 0 && q.list[0].key != "" && Bound(q) {
      DeleteAt(q.list, 0);
      RemoveFirstRecordsOf(q.list, q.list[0].key);
    }
  }

  lemma ClearKeepsConsistent<V>(q: Queue<V>)
    requires Consistent(q)
    ensures Consistent(Clear(q))
    ensures Bound(q) ==> Clear(q).store == Holds([])
  {
  }

  /** Loading a store whose records have distinct ids from a real path
      binds a consistent queue. */
  lemma LoadIsConsistent<V>(q: Queue<V>, path: string, res: Resource<V>)
    requires path != "" && !res.Corrupt? && DistinctIds(Contents(res))
    ensures Consistent(Load(q, path, res).state)
  {
    RecordsOfMapOf(Contents(res));
  }

  /** Reloading a consistent bound queue from its own store gives it back. */
  lemma ReloadRoundTrip<V>(q: Queue<V>)
    requires Bound(q) && Consistent(q)
    ensures Load(q, q.path, q.store) == Step(q, Ok(q.list))
  {
    MapOfRecordsOf(q.list);
  }

  /** A payload added to a bound queue with a readable store is there after
      a reload, whatever else the store holds: `add` appends its record
      last, and the last record with a taskId decides the loaded task. */
  lemma AddThenReload<V>(q: Queue<V>, k: string, v: V)
    requires Bound(q) && !q.store.Corrupt? && !Has(q.list, k)
    ensures var a := Add(q, k, v).state; GetTask(Load(a, a.path, a.store).state, k) == Some(v)
  {
    MapOfGet(Contents(q.store) + [Record(k, v)], k);
  }

  /** `del` undoes `add` of a fresh key, store included. */
  lemma AddThenDel<V>(q: Queue<V>, k: string, v: V)
    requires Consistent(q) && !Has(q.list, k)
    ensures Del(Add(q, k, v).state, k) == Step(q, Ok(true))
  {
    var a := Add(q, k, v).state;
    assert a.list[|q.list|] == Entry(k, v);
    DeleteAt(a.list, |q.list|);
    assert a.list[..|q.list|] == q.list;
    assert a.list[|q.list| + 1..] == [];
    if Bound(q) {
      RecordsOfDistinct(q.list);
      var rs := RecordsOf(q.list) + [Record(k, v)];
      assert a.store == Holds(rs);
      assert FirstWith(rs, k, |q.list|);
      assert rs[..|q.list|] == RecordsOf(q.list);
      assert rs[|q.list| + 1..] == [];
      assert RemoveFirst(rs, k) == RecordsOf(q.list);
      assert Del(a, k).state.list == q.list;
    } else {
      assert Has(a.list, k);
      assert Del(a, k).state.list == q.list;
    }
  }

  // ---------------------------------------------------------------------
  // FIFO order

  /** `add` each entry in turn. */
  function AddEach<V>(q: Queue<V>, es: seq<Entry<V>>): Queue<V>
    decreases |es|
  {
    if |es| == 0 then q else AddEach(Add(q, es[0].key, es[0].val).state, es[1..])
  }

  /** Call `next()` `n` times, collecting what each call returned. */
  function NextEach<V>(q: Queue<V>, n: nat): Step<Queue<V>, seq<Outcome<Option<V>>>>
    decreases n
  {
    if n == 0 then Step(q, [])
    else
      var s := Next(q);
      var rest := NextEach(s.state, n - 1);
      Step(rest.state, [s.out] + rest.out)
  }

  lemma {:induction false} AddEachAppends<V>(q: Queue<V>, es: OMap<V>)
    requires Readable(q)
    requires forall i :: 0 <= i < |es| ==> !Has(q.list, es[i].key)
    ensures AddEach(q, es).list == q.list + es
    ensures Readable(AddEach(q, es))
    ensures Bound(AddEach(q, es)) == Bound(q)
    decreases |es|
  {
    if |es| > 0 {
      var a := Add(q, es[0].key, es[0].val).state;
      assert !Has(q.list, es[0].key);
      forall i | 0 <= i < |es[1..]|
        ensures !Has(a.list, es[1..][i].key)
      {
        assert es[1..][i] == es[i + 1];
        assert es[i + 1].key != es[0].key;
      }
      AddEachAppends(a, es[1..]);
      assert q.list + [es[0]] + es[1..] == q.list + es;
    }
  }

  lemma {:induction false} NextEachPops<V>(q: Queue<V>)
    requires Readable(q) && NoEmptyKey(q.list)
    ensures NextEach(q, |q.list|).state.list == []
    ensures |NextEach(q, |q.list|).out| == |q.list|
    ensures forall i :: 0 <= i < |q.list| ==> NextEach(q, |q.list|).out[i] == Ok(Some(q.list[i].val))
    decreases |q.list|
  {
    if |q.list| > 0 {
      assert q.list[0].key != "";
      var s := Next(q);
      assert s.out == Ok(Some(q.list[0].val)) && s.state.list == q.list[1..];
      assert Readable(s.state) && NoEmptyKey(s.state.list);
      NextEachPops(s.state);
      var rest := NextEach(s.state, |q.list| - 1);
      var all := NextEach(q, |q.list|);
      assert all == Step(rest.state, [s.out] + rest.out);
      forall i | 1 <= i < |q.list|
        ensures all.out[i] == Ok(Some(q.list[i].val))
      {
        assert all.out[i] == rest.out[i - 1];
        assert s.state.list[i - 1] == q.list[i];
      }
    }
  }

  /** Distinct, non-empty keys added to an empty queue come back from
      `next()` in the order they were added, and leave the queue empty. */
  lemma FifoOrder<V>(q: Queue<V>, es: OMap<V>)
    requires q.list == [] && Readable(q) && NoEmptyKey(es)
    ensures var t := NextEach(AddEach(q, es), |es|);
      && t.state.list == []
      && |t.out| == |es|
      && forall i :: 0 <= i < |es| ==> t.out[i] == Ok(Some(es[i].val))
  {
    AddEachAppends(q, es);
    assert AddEach(q, es).list == es;
    NextEachPops(AddEach(q, es));
  }

  // ---------------------------------------------------------------------
  // Quirks

  /** An entry keyed "" at the front is invisible to `next()`: it answers
      `false` and pops nothing, however often it is called. */
  lemma {:induction false} EmptyKeyBlocksNext<V>(q: Queue<V>, n: nat)
    requires |q.list| > 0 && q.list[0].key == ""
    ensures NextEach(q, n).state == q
    ensures forall i :: 0 <= i < |NextEach(q, n).out| ==> NextEach(q, n).out[i] == Ok(None)
    ensures |NextEach(q, n).out| == n
    decreases n
  {
    if n > 0 {
      EmptyKeyBlocksNext(q, n - 1);
    }
  }

  /** A store edited to hold two records with one taskId loses the mirror:
      `del` drops the key from memory but only the first record from the
      store, so a reload brings the key back. */
  lemma DuplicateIdsBreakMirror()
    ensures var q := Load(NewQueue<int>(0), "tasks.json", Holds([Record("a", 1), Record("a", 2)])).state;
      && q.list == [Entry("a", 2)]
      && var d := Del(q, "a").state;
      && d.list == []
      && Load(d, d.path, d.store).state.list == [Entry("a", 2)]
  {
    var arr := [Record("a", 1), Record("a", 2)];
    assert arr[..1] == [Record("a", 1)];
    assert MapOf(arr[..1]) == [Entry("a", 1)];
    var q := Load(NewQueue<int>(0), "tasks.json", Holds(arr)).state;
    assert q.list == [Entry("a", 2)];
    var d := Del(q, "a").state;
    assert FirstWith(arr, "a", 0);
    assert d.store == Holds([Record("a", 2)]);
    assert MapOf([Record("a", 2)]) == [Entry("a", 2)] by {
      assert [Record("a", 2)][..0] == [];
    }
  }

  /** Loading a path whose resource does not exist yet binds an empty queue
      and creates the resource holding `[]`. */
  lemma LoadMissing<V>(q: Queue<V>, path: string)
    requires path != ""
    ensures var s := Load(q, path, Missing);
      s.out.Ok? && s.out.value == [] && Bound(s.state) && s.state.list == [] && s.state.store == Holds([])
  {
  }
}

=== FILE: driver.dfy ===
/** `processQueue(q, fn)`: drains either queue variant into a handler, then
    clears it. The handler is modelled by which items it accepts (a rejected
    item is one whose call throws) and by the trace of items it was called
    with; it is assumed not to touch the queue itself. */
module Driver {
  import opened Outcomes
  import opened OrderedMaps
  import opened Stores
  import opened DataQueue
  import opened FunctionQueue

  /** The handler calls made, and whether every one of them returned. */
  datatype Fed<Y> = Fed(trace: seq<Y>, ok: bool)

  /** `for (const data of items) await fn(data)`: each item is handed to the
      handler in order, and the first call that throws ends the loop. */
  function Feed<Y>(items: seq<Y>, accepts: Y -> bool): (f: Fed<Y>)
    ensures f.ok <==> forall i :: 0 <= i < |items| ==> accepts(items[i])
    ensures f.ok ==> f.trace == items
    ensures !f.ok ==>
      && 0 < |f.trace| <= |items| && f.trace == items[..|f.trace|]
      && !accepts(f.trace[|f.trace| - 1])
      && forall i :: 0 <= i < |f.trace| - 1 ==> accepts(f.trace[i])
    decreases |items|
  {
    if |items| == 0 then Fed([], true)
    else if !accepts(items[0]) then Fed([items[0]], false)
    else
      var rest := Feed(items[1..], accepts);
      assert forall i :: 1 <= i < |items| ==> items[i] == items[1..][i - 1];
      assert !rest.ok ==> items[..|rest.trace| + 1] == [items[0]] + items[1..][..|rest.trace|];
      Fed([items[0]] + rest.trace, rest.ok)
  }

  /** A trace that ends at the first call that threw: the last item was
      rejected and every earlier one accepted. */
  predicate StoppedAtThrow<Y>(trace: seq<Y>, accepts: Y -> bool) {
    && 0 < |trace|
    && !accepts(trace[|trace| - 1])
    && forall i :: 0 <= i < |trace| - 1 ==> accepts(trace[i])
  }

  /** What the driver leaves behind: the queue, the handler's trace, and
      whether it returned or threw. */
  datatype Processed<S, Y> = Processed(state: S, trace: seq<Y>, out: Outcome<()>)

  /** The `FnQueue` branch: `runAll()` first, then the handler on each result,
      then `clear()`. */
  function ProcessFnQueue<C, R>(q: FnQueue<C>, eval: C -> Completion<R>, accepts: R -> bool): (d: Processed<FnQueue<C>, R>)
    requires !q.running ==> NoEmptyKey(q.list)
    ensures q.running ==> d == Processed(q, [], Err(AlreadyRunning))
    ensures !q.running && FirstThrow(q.list, eval) < |q.list| ==>
      d == Processed(FnQueue(q.list[FirstThrow(q.list, eval) + 1..], true), [], Err(ComputationFailed))
    ensures !q.running && FirstThrow(q.list, eval) == |q.list| ==>
      var rs := Results(q.list, eval);
      && d.state == FnQueue([], false)
      && (d.out.Ok? <==> forall i :: 0 <= i < |rs| ==> accepts(rs[i]))
      && (d.out.Ok? ==> d.trace == rs)
      && (d.out.Err? ==> d.out == Err(HandlerFailed) && 0 < |d.trace| <= |rs| && d.trace == rs[..|d.trace|])
    ensures d.out == Err(HandlerFailed) ==> StoppedAtThrow(d.trace, accepts)
  {
    var ran := RunAll(q, eval);
    match ran.out
    case Err(f) => Processed(ran.state, [], Err(f))
    case Ok(results) =>
      var fed := Feed(results, accepts);
      if fed.ok then Processed(FunctionQueue.Clear(ran.state), fed.trace, Ok(()))
      else Processed(ran.state, fed.trace, Err(HandlerFailed))
  }

  /** The `Queue` branch: the handler on each pair `runAsync()` yields, then
      `clear()`; a handler that throws leaves the queue untouched. */
  function ProcessDataQueue<V>(q: Queue<V>, accepts: Record<V> -> bool): (d: Processed<Queue<V>, Record<V>>)
    ensures d.out.Ok? <==> forall i :: 0 <= i < |Run(q)| ==> accepts(Run(q)[i])
    ensures d.out.Ok? ==>
      && d.trace == Run(q)
      && d.state.list == []
      && d.state.path == q.path && d.state.loaded == q.loaded && d.state.delay == q.delay
      && d.state.store == (if Bound(q) then Holds([]) else q.store)
    ensures d.out.Err? ==>
      && d == Processed(q, d.trace, Err(HandlerFailed))
      && 0 < |d.trace| <= |Run(q)| && d.trace == Run(q)[..|d.trace|]
      && StoppedAtThrow(d.trace, accepts)
  {
    var items := Yields(RunAsync(q));
    var fed := Feed(items, accepts);
    if fed.ok then Processed(DataQueue.Clear(q), fed.trace, Ok(()))
    else Processed(q, fed.trace, Err(HandlerFailed))
  }

  /** The two queue variants `processQueue` tells apart with `instanceof`. */
  datatype AnyQueue<V, C> = DataQ(dq: Queue<V>) | FnQ(fq: FnQueue<C>)

  /** What the handler receives: a `{taskId, task}` pair or a computation's result. */
  datatype Item<V, R> = TaskRecord(rec: Record<V>) | TaskResult(res: R)

  function Size<V, C>(q: AnyQueue<V, C>): nat {
    match q
    case DataQ(dq) => |dq.list|
    case FnQ(fq) => |fq.list|
  }

  /** `processQueue(q, fn)` */
  function ProcessQueue<V, C, R>(q: AnyQueue<V, C>, eval: C -> Completion<R>, accepts: Item<V, R> -> bool): (d: Processed<AnyQueue<V, C>, Item<V, R>>)
    requires q.FnQ? && !q.fq.running ==> NoEmptyKey(q.fq.list)
    ensures d.state.DataQ? == q.DataQ?
    ensures d.out.Ok? ==> Size(d.state) == 0
    ensures d.out.Ok? && q.DataQ? && Bound(q.dq) ==> d.state.dq.store == Holds([])
    ensures d.out.Ok? && q.FnQ? ==> !d.state.fq.running
    ensures q.DataQ? && d.out.Err? ==> d.state == q
    ensures q.DataQ? ==> |d.trace| <= |Run(q.dq)| && forall i :: 0 <= i < |d.trace| ==> d.trace[i] == TaskRecord(Run(q.dq)[i])
    ensures q.DataQ? && d.out.Ok? ==> |d.trace| == |Run(q.dq)|
    ensures d.out == Err(HandlerFailed) ==> StoppedAtThrow(d.trace, accepts)
    ensures q.FnQ? && q.fq.running ==> d == Processed(q, [], Err(AlreadyRunning))
    ensures q.FnQ? && !q.fq.running && FirstThrow(q.fq.list, eval) < |q.fq.list| ==>
      d == Processed(FnQ(FnQueue(q.fq.list[FirstThrow(q.fq.list, eval) + 1..], true)), [], Err(ComputationFailed))
    ensures q.FnQ? && !q.fq.running && FirstThrow(q.fq.list, eval) == |q.fq.list| ==>
      && d.state == FnQ(FnQueue([], false))
      && |d.trace| <= |Results(q.fq.list, eval)|
      && (d.out.Ok? ==> |d.trace| == |Results(q.fq.list, eval)|)
      && forall i :: 0 <= i < |d.trace| ==> d.trace[i] == TaskResult(Results(q.fq.list, eval)[i])
  {
    match q
    case DataQ(dq) => DataBranch(dq, accepts)
    case FnQ(fq) => FnBranch(fq, eval, accepts)
  }

  /** The `instanceof Queue` branch, lifted to the dispatcher's types. */
  function DataBranch<V, C, R>(dq: Queue<V>, accepts: Item<V, R> -> bool): (d: Processed<AnyQueue<V, C>, Item<V, R>>)
    ensures d.state.DataQ?
    ensures d.out.Ok? ==> d.state.dq.list == []
    ensures d.out.Ok? && Bound(dq) ==> d.state.dq.store == Holds([])
    ensures d.out.Err? ==> d.state == DataQ(dq)
    ensures |d.trace| <= |Run(dq)| && forall i :: 0 <= i < |d.trace| ==> d.trace[i] == TaskRecord(Run(dq)[i])
    ensures d.out.Ok? ==> |d.trace| == |Run(dq)|
    ensures d.out.Err? ==> d.out == Err(HandlerFailed) && StoppedAtThrow(d.trace, accepts)
  {
    var acc := r => accepts(TaskRecord(r));
    var d := ProcessDataQueue(dq, acc);
    var t: seq<Item<V, R>> := AsRecords(d.trace);
    if d.out.Ok? then Processed(DataQ(d.state), t, d.out)
    else
      StoppedRecords(d.trace, acc, accepts);
      Processed(DataQ(d.state), t, d.out)
  }

  /** The `instanceof FnQueue` branch, lifted to the dispatcher's types. */
  function FnBranch<V, C, R>(fq: FnQueue<C>, eval: C -> Completion<R>, accepts: Item<V, R> -> bool): (d: Processed<AnyQueue<V, C>, Item<V, R>>)
    requires !fq.running ==> NoEmptyKey(fq.list)
    ensures d.state.FnQ?
    ensures d.out.Ok? ==> d.state.fq.list == [] && !d.state.fq.running
    ensures fq.running ==> d == Processed(FnQ(fq), [], Err(AlreadyRunning))
    ensures !fq.running && FirstThrow(fq.list, eval) < |fq.list| ==>
      d == Processed(FnQ(FnQueue(fq.list[FirstThrow(fq.list, eval) + 1..], true)), [], Err(ComputationFailed))
    ensures d.out == Err(HandlerFailed) ==> StoppedAtThrow(d.trace, accepts)
    ensures !fq.running && FirstThrow(fq.list, eval) == |fq.list| ==>
      && d.state == FnQ(FnQueue([], false))
      && |d.trace| <= |Results(fq.list, eval)|
      && (d.out.Ok? ==> |d.trace| == |Results(fq.list, eval)|)
      && forall i :: 0 <= i < |d.trace| ==> d.trace[i] == TaskResult(Results(fq.list, eval)[i])
  {
    var acc := r => accepts(TaskResult(r));
    var d := ProcessFnQueue(fq, eval, acc);
    var t: seq<Item<V, R>> := AsResults(d.trace);
    if d.out != Err(HandlerFailed) then Processed(FnQ(d.state), t, d.out)
    else
      StoppedResults(d.trace, acc, accepts);
      Processed(FnQ(d.state), t, d.out)
  }

  function AsRecords<V, R>(t: seq<Record<V>>): (r: seq<Item<V, R>>)
    ensures |r| == |t| && forall i :: 0 <= i < |t| ==> r[i] == TaskRecord(t[i])
  {
    seq(|t|, i requires 0 <= i < |t| => TaskRecord(t[i]))
  }

  function AsResults<V, R>(t: seq<R>): (r: seq<Item<V, R>>)
    ensures |r| == |t| && forall i :: 0 <= i < |t| ==> r[i] == TaskResult(t[i])
  {
    seq(|t|, i requires 0 <= i < |t| => TaskResult(t[i]))
  }

  /** A handler on records that stopped at a throw did so on the wrapped items too. */
  lemma StoppedRecords<V, R>(t: seq<Record<V>>, acc: Record<V> -> bool, accepts: Item<V, R> -> bool)
    requires forall r :: acc(r) == accepts(TaskRecord(r))
    requires StoppedAtThrow(t, acc)
    ensures StoppedAtThrow(AsRecords<V, R>(t), accepts)
  {
  }

  /** A handler on results that stopped at a throw did so on the wrapped items too. */
  lemma StoppedResults<V, R>(t: seq<R>, acc: R -> bool, accepts: Item<V, R> -> bool)
    requires forall r :: acc(r) == accepts(TaskResult(r))
    requires StoppedAtThrow(t, acc)
    ensures StoppedAtThrow(AsResults<V, R>(t), accepts)
  {
  }
}

=== FILE: fn_queue.dfy ===
/** `FnQueue<T>`: an in-memory ordered keyed queue of deferred computations
    with a single-flight `runAll` drain. */
module FunctionQueue {
  import opened Outcomes
  import opened OrderedMaps

  /** What awaiting a queued computation produced. A returned `false` is
      kept apart from other values because `runAll` drops it. */
  datatype Completion<R> = Returned(value: R) | ReturnedFalse | Threw

  /** The map of computations and the private `#running` guard. A
      computation is an opaque `C`; running it is the `eval` parameter. */
  datatype FnQueue<C> = FnQueue(list: OMap<C>, running: bool)

  /** `new FnQueue(options)`: no computations and the guard clear. The
      delay only times `next` and is not kept. */
  function NewFnQueue<C>(): (r: FnQueue<C>)
    ensures forall k :: !Has(r.list, k)
    ensures !r.running
  {
    FnQueue([], false)
  }

  /** `add([taskId, task])` */
  function Add<C>(q: FnQueue<C>, k: string, c: C): (s: Step<FnQueue<C>, bool>)
    ensures Has(q.list, k) ==> s == Step(q, false)
    ensures !Has(q.list, k) ==> s.out && s.state.list == q.list + [Entry(k, c)] && s.state.running == q.running
  {
    if Has(q.list, k) then Step(q, false)
    else Step(q.(list := Set(q.list, k, c)), true)
  }

  /** `del(taskId)` */
  function Del<C>(q: FnQueue<C>, k: string): (s: Step<FnQueue<C>, bool>)
    ensures !Has(q.list, k) ==> s == Step(q, false)
    ensures Has(q.list, k) ==> s.out && s.state.running == q.running
    ensures forall i :: 0 <= i < |q.list| && q.list[i].key == k ==> s.state.list == q.list[..i] + q.list[i + 1..]
  {
    if !Has(q.list, k) then Step(q, false)
    else
      assert forall i :: 0 <= i < |q.list| && q.list[i].key == k ==> Delete(q.list, k) == q.list[..i] + q.list[i + 1..] by {
        forall i | 0 <= i < |q.list| && q.list[i].key == k { DeleteAt(q.list, i); }
      }
      Step(q.(list := Delete(q.list, k)), true)
  }

  /** `del` undoes `add` of a fresh key. */
  lemma AddThenDel<C>(q: FnQueue<C>, k: string, c: C)
    requires !Has(q.list, k)
    ensures Del(Add(q, k, c).state, k) == Step(q, true)
  {
    var a := Add(q, k, c).state;
    assert a.list[|q.list|].key == k;
    assert a.list[..|q.list|] + a.list[|q.list| + 1..] == q.list;
  }

  /** `clear()`: empties the map and leaves the guard alone. */
  function Clear<C>(q: FnQueue<C>): (r: FnQueue<C>)
    ensures r.list == [] && r.running == q.running
  {
    q.(list := [])
  }

  /** `get(taskId)` */
  function GetTask<C>(q: FnQueue<C>, k: string): (r: Option<C>)
    ensures r.Some? <==> Has(q.list, k)
    ensures forall i :: 0 <= i < |q.list| && q.list[i].key == k ==> r == Some(q.list[i].val)
  {
    Get(q.list, k)
  }

  /** `next()`: pops the oldest computation and awaits it. Like the data
      queue it tests `if (!firstKey)`, so an empty queue and an oldest key ""
      both answer `false` without popping. The entry is deleted before the
      computation runs, so one that throws is gone too. */
  function Next<C, R>(q: FnQueue<C>, eval: C -> Completion<R>): (s: Step<FnQueue<C>, Completion<R>>)
    ensures |q.list| == 0 || q.list[0].key == "" ==> s == Step(q, ReturnedFalse)
    ensures |q.list| > 0 && q.list[0].key != "" ==>
      s == Step(FnQueue(q.list[1..], q.running), eval(q.list[0].val))
  {
    if |q.list| == 0 || q.list[0].key == "" then Step(q, ReturnedFalse)
    else
      var first := q.list[0];
      DeleteAt(q.list, 0);
      Step(q.(list := Delete(q.list, first.key)), eval(first.val))
  }

  // ---------------------------------------------------------------------
  // runAll

  /** Reference: the values the computations return, in queue order, with
      every `false` left out. */
  function Results<C, R>(list: seq<Entry<C>>, eval: C -> Completion<R>): seq<R>
    decreases |list|
  {
    if |list| == 0 then []
    else (if eval(list[0].val).Returned? then [eval(list[0].val).value] else []) + Results(list[1..], eval)
  }

  /** Reference: the position of the first computation that throws, or
      `|list|` when none does. */
  function FirstThrow<C, R>(list: seq<Entry<C>>, eval: C -> Completion<R>): (i: nat)
    ensures i <= |list|
    ensures forall j :: 0 <= j < i ==> !eval(list[j].val).Threw?
    ensures i < |list| ==> eval(list[i].val).Threw?
    decreases |list|
  {
    if |list| == 0 || eval(list[0].val).Threw? then 0
    else
      assert forall j :: 1 <= j < |list| ==> list[j] == list[1..][j - 1];
      1 + FirstThrow(list[1..], eval)
  }

  /** The state of `runAll`'s loop: still looping with the results so far,
      or left by a computation that threw. */
  datatype Loop<C, R> = Looping(q: FnQueue<C>, results: seq<R>) | Raised(q: FnQueue<C>)

  /** One pass of the loop body: `await this.next()`, keep a non-false result. */
  function Iteration<C, R>(q: FnQueue<C>, results: seq<R>, eval: C -> Completion<R>): Loop<C, R> {
    var n := Next(q, eval);
    match n.out
    case Threw => Raised(n.state)
    case ReturnedFalse => Looping(n.state, results)
    case Returned(v) => Looping(n.state, results + [v])
  }

  /** The loop `while (this.#list.size > 0)` and what follows it. With no
      key "" every pass pops an entry, so it ends: with the queue empty and
      the guard released, or with the exception of the first computation
      that throws and the guard still as it was. */
  function Drain<C, R>(q: FnQueue<C>, results: seq<R>, eval: C -> Completion<R>): (s: Step<FnQueue<C>, Outcome<seq<R>>>)
    requires NoEmptyKey(q.list)
    ensures Drained(q, results, eval, s)
    decreases |q.list|
  {
    if |q.list| == 0 then
      assert results + Results(q.list, eval) == results;
      Step(q.(running := false), Ok(results))
    else
      IterationPops(q, results, eval);
      match Iteration(q, results, eval)
      case Raised(q') => Step(q', Err(ComputationFailed))
      case Looping(q', results') =>
        var s := Drain(q', results', eval);
        DrainStep(q, results, eval, s);
        s
  }

  /** The postcondition of `Drain`, for `s` drained from `q` with `results`. */
  ghost predicate Drained<C, R>(q: FnQueue<C>, results: seq<R>, eval: C -> Completion<R>, s: Step<FnQueue<C>, Outcome<seq<R>>>) {
    && (FirstThrow(q.list, eval) == |q.list| ==>
         s == Step(FnQueue([], false), Ok(results + Results(q.list, eval))))
    && (FirstThrow(q.list, eval) < |q.list| ==>
         s == Step(FnQueue(q.list[FirstThrow(q.list, eval) + 1..], q.running), Err(ComputationFailed)))
  }

  lemma DrainStep<C, R>(q: FnQueue<C>, results: seq<R>, eval: C -> Completion<R>, s: Step<FnQueue<C>, Outcome<seq<R>>>)
    requires |q.list| > 0 && !eval(q.list[0].val).Threw?
    requires Drained(FnQueue(q.list[1..], q.running), results + Head(q.list, eval), eval, s)
    ensures Drained(q, results, eval, s)
  {
    TailFacts(q.list, eval);
    assert results + Head(q.list, eval) + Results(q.list[1..], eval) == results + Results(q.list, eval);
  }

  lemma IterationPops<C, R>(q: FnQueue<C>, results: seq<R>, eval: C -> Completion<R>)
    requires |q.list| > 0 && NoEmptyKey(q.list)
    ensures var l := Iteration(q, results, eval);
      && l.q == FnQueue(q.list[1..], q.running)
      && NoEmptyKey(l.q.list)
      && (l.Raised? <==> eval(q.list[0].val).Threw?)
      && (l.Looping? ==> l.results == results + Head(q.list, eval))
  {
    assert q.list[0].key != "";
  }

  /** The value the oldest computation contributes to the results. */
  function Head<C, R>(list: seq<Entry<C>>, eval: C -> Completion<R>): seq<R>
    requires |list| > 0
  {
    if eval(list[0].val).Returned? then [eval(list[0].val).value] else []
  }

  lemma TailFacts<C, R>(list: seq<Entry<C>>, eval: C -> Completion<R>)
    requires |list| > 0 && !eval(list[0].val).Threw?
    ensures FirstThrow(list, eval) == 1 + FirstThrow(list[1..], eval)
    ensures FirstThrow(list[1..], eval) < |list| - 1 ==>
      list[1..][FirstThrow(list[1..], eval) + 1..] == list[FirstThrow(list, eval) + 1..]
    ensures Results(list, eval) == Head(list, eval) + Results(list[1..], eval)
  {
  }

  /** `runAll()`. Throws at once, touching nothing, while the guard is set.
      Otherwise sets it and drains; it needs every key non-empty, because
      an entry keyed "" at the front makes the loop spin forever (see
      `EmptyKeyStallsRunAll`). */
  function RunAll<C, R>(q: FnQueue<C>, eval: C -> Completion<R>): (s: Step<FnQueue<C>, Outcome<seq<R>>>)
    requires !q.running ==> NoEmptyKey(q.list)
    ensures q.running ==> s == Step(q, Err(AlreadyRunning))
    ensures !q.running && FirstThrow(q.list, eval) == |q.list| ==>
      s == Step(FnQueue([], false), Ok(Results(q.list, eval)))
    ensures !q.running && FirstThrow(q.list, eval) < |q.list| ==>
      s == Step(FnQueue(q.list[FirstThrow(q.list, eval) + 1..], true), Err(ComputationFailed))
  {
    if q.running then Step(q, Err(AlreadyRunning))
    else
      assert [] + Results(q.list, eval) == Results(q.list, eval);
      Drain(q.(running := true), [], eval)
  }

  /** `n` passes of the loop, stopping early when it exits or throws. */
  function Iterate<C, R>(l: Loop<C, R>, eval: C -> Completion<R>, n: nat): Loop<C, R>
    decreases n
  {
    if n == 0 || l.Raised? || |l.q.list| == 0 then l
    else Iterate(Iteration(l.q, l.results, eval), eval, n - 1)
  }

  /** With an entry keyed "" at the front, no number of passes changes the
      loop state, and the loop condition `size > 0` stays true: `runAll`
      never returns. */
  lemma {:induction false} EmptyKeyStallsRunAll<C, R>(q: FnQueue<C>, results: seq<R>, eval: C -> Completion<R>, n: nat)
    requires |q.list| > 0 && q.list[0].key == ""
    ensures Iterate(Looping(q, results), eval, n) == Looping(q, results)
    ensures |Iterate(Looping(q, results), eval, n).q.list| > 0
    decreases n
  {
    if n > 0 {
      EmptyKeyStallsRunAll(q, results, eval, n - 1);
    }
  }

  /** A computation that throws inside `runAll` leaves `#running` set, so
      every later `runAll` throws without touching the queue. */
  lemma FailedRunAllStaysLocked<C, R>(q: FnQueue<C>, eval: C -> Completion<R>, later: C -> Completion<R>)
    requires !q.running && NoEmptyKey(q.list) && FirstThrow(q.list, eval) < |q.list|
    ensures RunAll(q, eval).state.running
    ensures RunAll(q, eval).out == Err(ComputationFailed)
    ensures var locked := RunAll(q, eval).state; RunAll(locked, later) == Step(locked, Err(AlreadyRunning))
  {
  }

  /** Every value kept by `runAll` was returned by some computation of the
      queue, and every non-false returned value is kept. */
  lemma {:induction false} ResultsAreReturnedValues<C, R>(list: seq<Entry<C>>, eval: C -> Completion<R>, v: R)
    ensures v in Results(list, eval) <==> exists i :: 0 <= i < |list| && eval(list[i].val) == Returned(v)
    decreases |list|
  {
    if |list| > 0 {
      ResultsAreReturnedValues(list[1..], eval, v);
      if exists i :: 0 <= i < |list| && eval(list[i].val) == Returned(v) {
        var i :| 0 <= i < |list| && eval(list[i].val) == Returned(v);
        if i > 0 { assert list[1..][i - 1] == list[i]; }
      }
      if exists i :: 0 <= i < |list[1..]| && eval(list[1..][i].val) == Returned(v) {
        var i :| 0 <= i < |list[1..]| && eval(list[1..][i].val) == Returned(v);
        assert list[i + 1] == list[1..][i];
      }
    }
  }
}

=== FILE: ordered_maps.dfy ===
/** JavaScript's `Map<string, V>`: unique keys, iterated in insertion order. */
module OrderedMaps {
  import opened Outcomes

  datatype Entry<V> = Entry(key: string, val: V)

  predicate DistinctKeys<V>(s: seq<Entry<V>>) {
    forall i, j :: 0 <= i < j < |s| ==> s[i].key != s[j].key
  }

  /** A `Map` as the sequence of its entries in iteration order. */
  type OMap<V> = s: seq<Entry<V>> | DistinctKeys(s) witness []

  function Keys<V>(s: seq<Entry<V>>): seq<string> {
    seq(|s|, i requires 0 <= i < |s| => s[i].key)
  }

  /** `Map.prototype.has` */
  predicate Has<V>(s: seq<Entry<V>>, k: string) {
    exists i :: 0 <= i < |s| && s[i].key == k
  }

  /** No entry is keyed by the empty string, the one key `next` cannot see. */
  predicate NoEmptyKey<V>(s: seq<Entry<V>>) {
    !Has(s, "")
  }

  /** `Map.prototype.get`: the value under `k`, or None for `undefined`. */
  function Get<V>(m: OMap<V>, k: string): (r: Option<V>)
    ensures r.None? <==> !Has(m, k)
    ensures forall i :: 0 <= i < |m| && m[i].key == k ==> r == Some(m[i].val)
    decreases |m|
  {
    if |m| == 0 then None
    else if m[0].key == k then Some(m[0].val)
    else
      var r := Get(m[1..], k);
      assert forall i :: 1 <= i < |m| ==> m[i] == m[1..][i - 1];
      r
  }

  /** `Map.prototype.set`: a new key goes to the end; a present key keeps
      its place and takes the new value. */
  function Set<V>(m: OMap<V>, k: string, v: V): (r: OMap<V>)
    ensures Get(r, k) == Some(v)
    ensures forall k' :: k' != k ==> Get(r, k') == Get(m, k')
    ensures forall k' :: Has(r, k') <==> Has(m, k') || k' == k
    ensures Has(m, k) ==> Keys(r) == Keys(m)
    ensures !Has(m, k) ==> r == m + [Entry(k, v)]
  {
    if Has(m, k) then
      var s := seq(|m|, i requires 0 <= i < |m| => if m[i].key == k then Entry(k, v) else m[i]);
      assert Keys(s) == Keys(m);
      SetProof(m, s, k, v);
      s
    else
      var s := m + [Entry(k, v)];
      AppendProof(m, k, v);
      s
  }

  lemma SetProof<V>(m: OMap<V>, s: seq<Entry<V>>, k: string, v: V)
    requires Has(m, k) && |s| == |m|
    requires forall i :: 0 <= i < |m| ==> s[i] == if m[i].key == k then Entry(k, v) else m[i]
    ensures DistinctKeys(s) && Keys(s) == Keys(m)
    ensures Get(s, k) == Some(v)
    ensures forall k' :: k' != k ==> Get(s, k') == Get(m, k')
    ensures forall k' :: Has(s, k') <==> Has(m, k')
  {
    assert forall i :: 0 <= i < |m| ==> s[i].key == m[i].key;
    assert Keys(s) == Keys(m);
    var i :| 0 <= i < |m| && m[i].key == k;
    assert s[i] == Entry(k, v);
    forall k' | k' != k
      ensures Get(s, k') == Get(m, k')
    {
      HasKeys(m, k');
      HasKeys(s, k');
      if Has(m, k') {
        var j :| 0 <= j < |m| && m[j].key == k';
        assert s[j] == m[j];
      }
    }
  }

  lemma AppendProof<V>(m: OMap<V>, k: string, v: V)
    requires !Has(m, k)
    ensures DistinctKeys(m + [Entry(k, v)])
    ensures Get(m + [Entry(k, v)], k) == Some(v)
    ensures forall k' :: k' != k ==> Get(m + [Entry(k, v)], k') == Get(m, k')
    ensures forall k' :: Has(m + [Entry(k, v)], k') <==> Has(m, k') || k' == k
  {
    var s := m + [Entry(k, v)];
    assert s[|m|] == Entry(k, v);
    forall k' | k' != k
      ensures Get(s, k') == Get(m, k')
    {
      if Has(m, k') {
        var j :| 0 <= j < |m| && m[j].key == k';
        assert s[j] == m[j];
      } else {
        assert !Has(s, k');
      }
    }
    forall k' | Has(s, k')
      ensures Has(m, k') || k' == k
    {
      var j :| 0 <= j < |s| && s[j].key == k';
      if j < |m| { assert m[j] == s[j]; }
    }
    forall k' | Has(m, k')
      ensures Has(s, k')
    {
      var j :| 0 <= j < |m| && m[j].key == k';
      assert s[j] == m[j];
    }
  }

  /** `Map.prototype.delete`: drops the entry keyed `k`, if any. */
  function Delete<V>(m: OMap<V>, k: string): (r: OMap<V>)
    ensures !Has(r, k)
    ensures forall j :: 0 <= j < |r| ==> r[j] in m && r[j].key != k
    ensures forall j :: 0 <= j < |m| && m[j].key != k ==> m[j] in r
    ensures Has(m, k) ==> |r| == |m| - 1
    ensures !Has(m, k) ==> r == m
    decreases |m|
  {
    if |m| == 0 then m
    else if m[0].key == k then
      DeleteFront(m);
      m[1..]
    else
      var t := Delete(m[1..], k);
      DeleteCons(m, k, t);
      [m[0]] + t
  }

  lemma DeleteFront<V>(m: OMap<V>)
    requires |m| > 0
    ensures !Has(m[1..], m[0].key)
    ensures forall j :: 0 <= j < |m| && m[j].key != m[0].key ==> m[j] in m[1..]
  {
    forall j | 0 <= j < |m| && m[j].key != m[0].key
      ensures m[j] in m[1..]
    {
      assert j > 0 && m[1..][j - 1] == m[j];
    }
  }

  lemma DeleteCons<V>(m: OMap<V>, k: string, t: OMap<V>)
    requires |m| > 0 && m[0].key != k
    requires !Has(t, k)
    requires forall j :: 0 <= j < |t| ==> t[j] in m[1..] && t[j].key != k
    requires forall j :: 0 <= j < |m| - 1 && m[1..][j].key != k ==> m[1..][j] in t
    requires Has(m[1..], k) ==> |t| == |m| - 2
    requires !Has(m[1..], k) ==> t == m[1..]
    ensures DistinctKeys([m[0]] + t)
    ensures !Has([m[0]] + t, k)
    ensures forall j :: 0 <= j < |t| + 1 ==> ([m[0]] + t)[j] in m && ([m[0]] + t)[j].key != k
    ensures forall j :: 0 <= j < |m| && m[j].key != k ==> m[j] in [m[0]] + t
    ensures Has(m, k) ==> |t| + 1 == |m| - 1
    ensures !Has(m, k) ==> [m[0]] + t == m
  {
    var r := [m[0]] + t;
    forall j | 0 <= j < |t|
      ensures t[j].key != m[0].key
    {
      var i :| 0 <= i < |m| - 1 && m[1..][i] == t[j];
      assert m[i + 1] == t[j];
    }
    forall j | 1 <= j < |m| && m[j].key != k
      ensures m[j] in r
    {
      assert m[1..][j - 1] == m[j];
    }
    if Has(m, k) {
      var i :| 0 <= i < |m| && m[i].key == k;
      assert m[1..][i - 1] == m[i];
    } else {
      assert [m[0]] + m[1..] == m;
    }
  }

  /** Survivors of `delete` keep their relative order. */
  lemma {:induction false} DeleteAt<V>(m: OMap<V>, i: nat)
    requires i < |m|
    ensures Delete(m, m[i].key) == m[..i] + m[i + 1..]
    decreases i
  {
    if i == 0 {
      assert m[..0] + m[1..] == m[1..];
    } else {
      DeleteAt(m[1..], i - 1);
      SpliceCons(m, i);
    }
  }

  lemma SpliceCons<V>(m: seq<Entry<V>>, i: nat)
    requires 0 < i < |m|
    ensures m[1..][i - 1] == m[i]
    ensures [m[0]] + (m[1..][..i - 1] + m[1..][i..]) == m[..i] + m[i + 1..]
  {
    assert m[1..][..i - 1] == m[1..i];
    assert m[1..][i..] == m[i + 1..];
    assert m[..i] == [m[0]] + m[1..i];
  }

  lemma HasKeys<V>(m: seq<Entry<V>>, k: string)
    ensures Has(m, k) <==> k in Keys(m)
  {
    if k in Keys(m) {
      var i :| 0 <= i < |m| && Keys(m)[i] == k;
      assert m[i].key == k;
    }
    if Has(m, k) {
      var i :| 0 <= i < |m| && m[i].key == k;
      assert Keys(m)[i] == k;
    }
  }
}

=== FILE: outcomes.dfy ===
/** Result shapes shared by both queue variants and the drain driver. */
module Outcomes {

  /** A present value, or JavaScript's `undefined` / the `false` sentinel. */
  datatype Option<T> = None | Some(value: T)

  /** Every way an operation of the queue library can throw. */
  datatype Failure =
    | StoreUnreadable    // the durable store could not be read, parsed or used as an array
    | AlreadyRunning     // FnQueue.runAll entered while its guard is set
    | ComputationFailed  // a queued computation threw
    | HandlerFailed      // the drain driver's item handler threw

  /** A returned value, or the failure an operation threw. */
  datatype Outcome<R> = Ok(value: R) | Err(failure: Failure)

  /** The state an operation leaves behind together with what it returned. */
  datatype Step<S, R> = Step(state: S, out: R)
}

=== FILE: scenarios.dfy ===
/** Worked examples over the model. `DrainNamedTasks` follows the
    library's demo; the `runAll` examples are small cases of its own. */
module Scenarios {
  import opened Outcomes
  import opened OrderedMaps
  import opened Stores
  import opened DataQueue
  import opened FunctionQueue
  import opened Driver

  /** The demo's payload object `{ name }`. */
  datatype Person = Person(name: string)

  /** The demo's four named tasks, keyed `task0` … `task3`. */
  function NamedTasks(): OMap<Person> {
    [Entry("task0", Person("Gabriel")), Entry("task1", Person("Pedro")), Entry("task2", Person("Roberto")), Entry("task3", Person("Maiara"))]
  }

  /** Adding the four named tasks to an empty unbound queue and draining
      it with a handler that never throws hands the handler the records in
      the order they were added, and leaves the queue empty. */
  lemma DrainNamedTasks(q0: Queue<Person>)
    requires q0.list == [] && !Bound(q0)
    ensures var d := ProcessDataQueue(AddEach(q0, NamedTasks()), _ => true);
      && d.out == Ok(())
      && d.trace == [Record("task0", Person("Gabriel")), Record("task1", Person("Pedro")), Record("task2", Person("Roberto")), Record("task3", Person("Maiara"))]
      && d.state.list == []
  {
    AddEachAppends(q0, NamedTasks());
    var q := AddEach(q0, NamedTasks());
    DrainAcceptingAll(q);
    NamedRecords();
  }

  lemma DrainAcceptingAll<V>(q: Queue<V>)
    ensures var d := ProcessDataQueue(q, _ => true);
      d.out == Ok(()) && d.trace == RecordsOf(q.list) && d.state.list == []
  {
  }

  lemma NamedRecords()
    ensures RecordsOf(NamedTasks()) == [Record("task0", Person("Gabriel")), Record("task1", Person("Pedro")), Record("task2", Person("Roberto")), Record("task3", Person("Maiara"))]
  {
  }

  /** `runAll` over `task1 -> "A"` and `task2 -> "B"` returns `["A", "B"]`;
      entered again while its guard is set, it throws and touches nothing. */
  lemma RunAllTwoTasks()
    ensures var q := FnQueue([Entry("task1", "A"), Entry("task2", "B")], false);
      RunAll(q, c => Returned(c)) == Step(FnQueue([], false), Ok(["A", "B"]))
    ensures var busy := FnQueue([Entry("task1", "A"), Entry("task2", "B")], true);
      RunAll(busy, c => Returned(c)) == Step(busy, Err(AlreadyRunning))
  {
    var list := [Entry("task1", "A"), Entry("task2", "B")];
    var eval: string -> Completion<string> := c => Returned(c);
    assert FirstThrow(list[1..][1..], eval) == 0;
    assert FirstThrow(list, eval) == 2;
    assert Results(list[1..][1..], eval) == [];
    assert Results(list, eval) == ["A", "B"];
  }

  /** A computation that returns `false` is run but its result is dropped. */
  lemma RunAllDropsFalse()
    ensures var q := FnQueue([Entry("a", 1), Entry("b", 2), Entry("c", 3)], false);
      var eval: int -> Completion<int> := c => if c == 2 then ReturnedFalse else Returned(c * 10);
      RunAll(q, eval) == Step(FnQueue([], false), Ok([10, 30]))
  {
    var list := [Entry("a", 1), Entry("b", 2), Entry("c", 3)];
    var eval: int -> Completion<int> := c => if c == 2 then ReturnedFalse else Returned(c * 10);
    assert FirstThrow(list[1..][1..][1..], eval) == 0;
    assert FirstThrow(list, eval) == 3;
    assert Results(list[1..][1..][1..], eval) == [];
    assert Results(list, eval) == [10, 30];
  }
}

=== FILE: stores.dfy ===
/** The durable store a data queue mirrors itself to: one resource holding a
    JSON array of `{taskId, task}` records, read and rewritten whole. */
module Stores {
  import opened Outcomes
  import opened OrderedMaps

  datatype Record<V> = Record(taskId: string, task: V)

  /** What the resource at a path holds: nothing yet, content on which
      `load`, `add`, `del` and `next` all throw (text that is not JSON, or
      JSON that is not an array), or a record array (duplicates allowed).
      Arrays holding `null` or other non-record items are not represented:
      on those the operations differ in whether they throw. */
  datatype Resource<V> = Missing | Corrupt | Holds(records: seq<Record<V>>)

  function Ids<V>(arr: seq<Record<V>>): seq<string> {
    seq(|arr|, i requires 0 <= i < |arr| => arr[i].taskId)
  }

  predicate HasId<V>(arr: seq<Record<V>>, id: string) {
    exists i :: 0 <= i < |arr| && arr[i].taskId == id
  }

  predicate DistinctIds<V>(arr: seq<Record<V>>) {
    forall i, j :: 0 <= i < j < |arr| ==> arr[i].taskId != arr[j].taskId
  }

  /** The records a readable resource yields; a missing one reads as `[]`. */
  function Contents<V>(res: Resource<V>): seq<Record<V>>
    requires !res.Corrupt?
  {
    if res.Holds? then res.records else []
  }

  /** `readFile`: a missing resource is first created holding `[]`; text
      that is not a record array fails. */
  function Read<V>(res: Resource<V>): (s: Step<Resource<V>, Outcome<seq<Record<V>>>>)
    ensures s.out.Err? <==> res.Corrupt?
    ensures res.Corrupt? ==> s == Step(res, Err(StoreUnreadable))
    ensures !res.Corrupt? ==> s.out == Ok(Contents(res)) && s.state == Holds(Contents(res))
  {
    match res
    case Missing => Step(Holds([]), Ok([]))
    case Corrupt => Step(res, Err(StoreUnreadable))
    case Holds(arr) => Step(res, Ok(arr))
  }

  /** `Array.prototype.findIndex` on the taskId, -1 when no record matches. */
  function FindIndex<V>(arr: seq<Record<V>>, id: string): (i: int)
    ensures -1 <= i < |arr|
    ensures i == -1 <==> !HasId(arr, id)
    ensures 0 <= i ==> arr[i].taskId == id && forall j :: 0 <= j < i ==> arr[j].taskId != id
    decreases |arr|
  {
    if |arr| == 0 then -1
    else if arr[0].taskId == id then 0
    else
      var i := FindIndex(arr[1..], id);
      assert forall j :: 1 <= j < |arr| ==> arr[j] == arr[1..][j - 1];
      if i == -1 then -1 else i + 1
  }

  /** `i` is the position of the first record whose taskId is `id`. */
  predicate FirstWith<V>(arr: seq<Record<V>>, id: string, i: int) {
    0 <= i < |arr| && arr[i].taskId == id && forall j :: 0 <= j < i ==> arr[j].taskId != id
  }

  /** The store edit of `del` and `next`: `findIndex`, then `splice(index, 1)`
      when a record was found. */
  function RemoveFirst<V>(arr: seq<Record<V>>, id: string): (r: seq<Record<V>>)
    ensures !HasId(arr, id) ==> r == arr
    ensures forall i :: FirstWith(arr, id, i) ==> r == arr[..i] + arr[i + 1..]
    ensures HasId(arr, id) ==> |r| == |arr| - 1
  {
    var i := FindIndex(arr, id);
    assert forall j :: FirstWith(arr, id, j) ==> j == i by {
      forall j | FirstWith(arr, id, j)
        ensures j == i
      {
        assert i != -1 by { assert arr[j].taskId == id; }
      }
    }
    if i != -1 then arr[..i] + arr[i + 1..] else arr
  }

  /** `new Map(arr.map(item => [item.taskId, item.task]))`: the records
      `set` into an empty map one after the other. */
  function MapOf<V>(arr: seq<Record<V>>): (m: OMap<V>)
    ensures forall k :: Has(m, k) <==> HasId(arr, k)
    decreases |arr|
  {
    if |arr| == 0 then []
    else
      var last := arr[|arr| - 1];
      var prefix := arr[..|arr| - 1];
      var m := Set(MapOf(prefix), last.taskId, last.task);
      assert forall k :: HasId(arr, k) <==> HasId(prefix, k) || k == last.taskId by {
        forall k | HasId(arr, k)
          ensures HasId(prefix, k) || k == last.taskId
        {
          var i :| 0 <= i < |arr| && arr[i].taskId == k;
          if i < |arr| - 1 { assert prefix[i] == arr[i]; }
        }
        forall k | HasId(prefix, k)
          ensures HasId(arr, k)
        {
          var i :| 0 <= i < |prefix| && prefix[i].taskId == k;
          assert arr[i] == prefix[i];
        }
      }
      m
  }

  /** The records a map is written back as: its entries in iteration order. */
  function RecordsOf<V>(m: seq<Entry<V>>): seq<Record<V>> {
    seq(|m|, i requires 0 <= i < |m| => Record(m[i].key, m[i].val))
  }

  /** The distinct ids of `ids`, each where it first occurs. */
  function FirstOccurrences(ids: seq<string>): seq<string>
    decreases |ids|
  {
    if |ids| == 0 then []
    else
      var seen := FirstOccurrences(ids[..|ids| - 1]);
      if ids[|ids| - 1] in seen then seen else seen + [ids[|ids| - 1]]
  }

  /** The task of the last record with taskId `id`. */
  function LastTask<V>(arr: seq<Record<V>>, id: string): Option<V>
    decreases |arr|
  {
    if |arr| == 0 then None
    else if arr[|arr| - 1].taskId == id then Some(arr[|arr| - 1].task)
    else LastTask(arr[..|arr| - 1], id)
  }

  /** Loading a record array keeps each taskId where it first occurs... */
  lemma {:induction false} MapOfKeys<V>(arr: seq<Record<V>>)
    ensures Keys(MapOf(arr)) == FirstOccurrences(Ids(arr))
    decreases |arr|
  {
    if |arr| > 0 {
      var n := |arr| - 1;
      var prefix := arr[..n];
      MapOfKeys(prefix);
      assert Ids(arr)[..n] == Ids(prefix);
      var p := MapOf(prefix);
      HasKeys(p, arr[n].taskId);
      if !Has(p, arr[n].taskId) {
        assert Keys(p + [Entry(arr[n].taskId, arr[n].task)]) == Keys(p) + [arr[n].taskId];
      }
    }
  }

  /** ...and gives it the task of the record where it last occurs. */
  lemma {:induction false} MapOfGet<V>(arr: seq<Record<V>>, id: string)
    ensures Get(MapOf(arr), id) == LastTask(arr, id)
    decreases |arr|
  {
    if |arr| > 0 {
      MapOfGet(arr[..|arr| - 1], id);
    }
  }

  lemma RecordsOfAppend<V>(m: seq<Entry<V>>, e: Entry<V>)
    ensures RecordsOf(m + [e]) == RecordsOf(m) + [Record(e.key, e.val)]
  {
  }

  /** Writing a map's records and loading them back yields the same map. */
  lemma {:induction false} MapOfRecordsOf<V>(m: OMap<V>)
    ensures MapOf(RecordsOf(m)) == m
    decreases |m|
  {
    if |m| > 0 {
      var n := |m| - 1;
      var prefix: OMap<V> := m[..n];
      assert RecordsOf(m)[..n] == RecordsOf(prefix);
      MapOfRecordsOf(prefix);
      assert !Has(prefix, m[n].key);
      assert prefix + [Entry(m[n].key, m[n].val)] == m;
    }
  }

  /** Loading a record array with distinct ids and writing it back yields
      the same array. */
  lemma {:induction false} RecordsOfMapOf<V>(arr: seq<Record<V>>)
    requires DistinctIds(arr)
    ensures RecordsOf(MapOf(arr)) == arr
    decreases |arr|
  {
    if |arr| > 0 {
      var n := |arr| - 1;
      var prefix := arr[..n];
      RecordsOfMapOf(prefix);
      assert !HasId(prefix, arr[n].taskId);
      RecordsOfAppend(MapOf(prefix), Entry(arr[n].taskId, arr[n].task));
      assert prefix + [arr[n]] == arr;
    }
  }

  lemma RecordsOfDistinct<V>(m: OMap<V>)
    ensures DistinctIds(RecordsOf(m))
    ensures forall k :: HasId(RecordsOf(m), k) <==> Has(m, k)
  {
    var rs := RecordsOf(m);
    forall k | Has(m, k)
      ensures HasId(rs, k)
    {
      var i :| 0 <= i < |m| && m[i].key == k;
      assert rs[i].taskId == k;
    }
  }

  /** The store edit of `del` mirrors the map's `delete`. */
  lemma RemoveFirstRecordsOf<V>(m: OMap<V>, k: string)
    ensures RemoveFirst(RecordsOf(m), k) == RecordsOf(Delete(m, k))
  {
    var rs := RecordsOf(m);
    RecordsOfDistinct(m);
    if Has(m, k) {
      var i :| 0 <= i < |m| && m[i].key == k;
      DeleteAt(m, i);
      assert FirstWith(rs, k, i) by {
        assert rs[i].taskId == k;
        forall j | 0 <= j < i
          ensures rs[j].taskId != k
        {
          assert rs[j].taskId == m[j].key;
        }
      }
      RecordsOfSplice(m, i);
    } else {
      assert !HasId(rs, k);
    }
  }

  lemma RecordsOfSplice<V>(m: seq<Entry<V>>, i: nat)
    requires i < |m|
    ensures RecordsOf(m[..i] + m[i + 1..]) == RecordsOf(m)[..i] + RecordsOf(m)[i + 1..]
  {
    var l := m[..i] + m[i + 1..];
    var r := RecordsOf(m)[..i] + RecordsOf(m)[i + 1..];
    assert |RecordsOf(l)| == |r|;
    forall j | 0 <= j < |r|
      ensures RecordsOf(l)[j] == r[j]
    {
      if j < i {
        assert l[j] == m[j];
      } else {
        assert l[j] == m[j + 1];
      }
    }
  }
}
